=== FILE: README.md ===
# Sensei node orchestration — a Dafny model

This project models the orchestration core of the Sensei multi-tenant Lightning node host: the
`AdminService` command dispatcher and its node-lifecycle helpers (`src/services/admin.rs`), and the
paged view `PagedVec` (`src/utils.rs`).

The service is a sequential state machine over three pieces of state, held in `Lifecycle.State`:

- the **registry**: the persisted node table, a sequence of `Node` rows whose identifier is their
  position (`Registry.Registry`);
- the **live-node directory**: a map from public key to a running-node handle;
- the **configuration**: the Electrum backend URL and the network, beside the service's data directory.

Every lock-protected block of the source is one atomic transition. A command is
`Service.Call(state, env, request)`. It returns an `Outcome`: the next state, the side effects in order
(saving the configuration, spawning or halting a node's tasks, removing a data directory), and the answer
or a typed error. A failed command keeps whatever it changed before failing. The source does not roll
back either, so a tenant whose engine cannot be built leaves its inserted record behind.

Everything the service cannot see is a field of `Lifecycle.Env`, fixed for one command:
- the Lightning engine factory (`LightningNode::new`), a function from the engine request to an engine
  or an error message;
- the public address (`public_ip::addr`);
- the ports `portpicker` offers, in order, before it gives up;
- the external identifier a new record receives;
- the file system's answer to `remove_dir_all`.

An engine is abstracted to its public key, its serialized macaroon and the identity of its routing graph.
A tenant engine is handed the admin engine's graph. The admin engine is built without one.

Modules: `Common` (Option/Result), `Paging` (`src/utils.rs`), `Hex` (the hexadecimal text of macaroons in
responses), `Registry` and `RegistryAppend` (the registry queries the service makes), `Lifecycle` and
`LifecycleInvariants` (the helpers of `admin.rs`), `Service` (the dispatcher) and `ServiceProps`
(properties of whole commands and of command sequences).

`PagedVec::new` is the datatype constructor `Paging.PagedVec`. `AdminService::new` corresponds to building
a `Lifecycle.State`.

## Model

| member | source | states |
|---|---|---|
| Paging.Page | src/utils.rs:46-59 | `None` exactly when the index is at or past the end. Otherwise the slice is the contiguous range of the borrowed sequence starting at a multiple of the page length. It is non-empty and no longer than a page, it is a full page unless it reaches the end, and the element at the returned offset is the indexed element. Requires a positive page length only when the index is in range, since that is the only case where the source divides. |
| Paging.PageIsChunk | src/utils.rs:50-55 | `page(i)` equals piece number `i / page_length` of an independent recursive cut of the sequence into pages, at offset `i % page_length`. |
| Paging.ChunksFlatten | src/utils.rs:51-55 | The reference cut used above is a partition: read in order, its pieces give back the sequence. |
| Paging.ChunksShape | src/utils.rs:51-55 | The reference cut has `ceil(len / page_length)` pieces, each non-empty and at most a page long. |
| Paging.WorkedExample | src/utils.rs:46-59 | With ten elements and pages of three, `page(0)`, `page(3)` and `page(6)` have length 3, `page(9)` has length 1 and `page(10)` is `None`. |
| Hex.Encode | src/services/admin.rs:238 | The hexadecimal text of a serialized macaroon has two characters per byte. |
| Hex.DecodeEncode | src/services/admin.rs:238 | The macaroon text in a response loses nothing: a reference decoder, written independently of `Encode`, reads it back to the original bytes. |
| Hex.EncodeInjective | src/services/admin.rs:256-259 | A non-empty macaroon has non-empty text, and distinct macaroons have distinct texts. |
| Registry.FindByPubkey | src/services/admin.rs:184 | `get_node_by_pubkey` finds nothing exactly when no row has the key. Otherwise it returns a row with that key, which in a well-formed table is the row under its own identifier. |
| Registry.GetAdmin | src/services/admin.rs:182 | `get_admin_node` finds nothing exactly when no row has role Admin. Otherwise it returns an Admin row of the table. |
| Registry.Update | src/services/admin.rs:404-407 | `update_node` (also at lines 293 and 495) rewrites the row under the record's identifier and leaves the row count and every other row unchanged. An identifier past the end changes nothing. |
| Registry.Insert | src/services/admin.rs:397-399 | `create_node` appends the record under the next identifier and keeps earlier rows. It keeps the table well formed, and keeps ports distinct when the new port was not in use. |
| Lifecycle.NodeConfig | src/services/admin.rs:448-461 | The engine configuration uses an external router exactly for a User record. It carries the current backend URL and network, the record's port and alias, and the data directory `<data_dir>/<network>/<external_id>`. |
| Lifecycle.DataDirSeparatesNodes | src/services/admin.rs:453 | The data directory is the external id under `<data_dir>/<network>/`, so records with different external ids never share a directory. |
| Lifecycle.GetNode | src/services/admin.rs:413-446 | A User record fails with `AdminNodeNotCreated` when there is no admin record, and with `AdminNodeNotStarted` when the admin's key is not in the live directory. Otherwise it is built with the running admin engine's routing graph. An Admin record is built with no graph. |
| Lifecycle.Start | src/services/admin.rs:469-498 | The engine is built first, and a build error changes nothing. If the key already has a handle, nothing changes, no tasks are spawned, and the freshly built engine is still returned. Otherwise a successful build always starts the node: the command succeeds with that engine, exactly one handle is inserted under the record's key, tasks are spawned once, and the record is written back as Running at the current public address. |
| Lifecycle.Stop | src/services/admin.rs:500-515 | Never fails and leaves the registry and configuration alone. An absent key changes nothing. A present key loses its entry, its tasks are halted, and every other entry is unchanged. |
| Lifecycle.PickPort | src/services/admin.rs:367-378 | The chosen port is one of the offered ports and is not in use in the registry. No port is chosen exactly when every offered port is in use. |
| Lifecycle.AllocatePort | src/services/admin.rs:369-375 | The draw-and-retry loop returns the first offered port that is not in use, the same port `PickPort` chooses. |
| Lifecycle.Create | src/services/admin.rs:358-411 | When no port is free, the result is `NoPortsLeft` and nothing changes. Otherwise one record is appended on a port not in use, with the given role, username, alias, configured network, public address and external id. The engine is built by `get_node` for that record on the state after the insert: the command succeeds exactly when that build does, returns that engine, and fails with that build's error. On success the appended record is exactly the new record, on the picked port, carrying the engine's public key, and it is the record returned. On failure the record stays, without a key. The directory and configuration are untouched. |
| Lifecycle.DeleteData | src/services/admin.rs:463-467 | Removing a node touches neither registry nor directory. It removes exactly the record's data directory and fails exactly when the file system refuses. |
| LifecycleInvariants.StartKeepsValid | src/services/admin.rs:474-497 | Starting a registry record keeps rows numbered by position and ports distinct, and keeps only registered keys in the live directory. |
| LifecycleInvariants.CreateKeepsValid | src/services/admin.rs:367-408 | Creating a record keeps the same invariants, because the picked port was free. |
| Service.StatusOf | src/services/admin.rs:180-208 | The status always echoes the queried key. `created` holds exactly when an Admin row exists. An unknown key gives not running, not authenticated and empty identity fields. A registered key gives `running` exactly when the key is in the live directory, is authenticated, and carries that record's alias, username and role. |
| Service.Call | src/services/admin.rs:156-340 | Every successful answer has the shape of its command. `GetConfig`, `GetStatus` and `DeleteNode` leave the state unchanged, and `GetConfig` answers the stored backend URL. Only `UpdateConfig` and `CreateAdmin` touch the configuration. `UpdateConfig` replaces only the backend URL, keeping the network, saves that configuration as its single effect and acknowledges. No command changes the data directory. `GetConfig`, `UpdateConfig`, `GetStatus` and `StopNode` never fail. Only the two create commands add a record, and at most one. `GetStatus` answers the status report of the queried key. Every other command is exactly its handler below, called with the request's own fields, including `start`. |
| Service.CallCreateAdmin | src/services/admin.rs:210-242 | The new URL is stored. The effects are its save, followed by the effects of `start_node` only when `start` is set and creation succeeded. The registry is the one `create_node` leaves. A creation failure is the answer with that state. A success answers the created engine's key and macaroon text, the record's external id and role Admin. With `start`, the state is the one `start_node` leaves, and the command succeeds exactly when that start does, failing with the start's error. |
| Service.CallStartAdmin | src/services/admin.rs:243-265 | With no admin record: "admin node not found, run create first" and no change. Otherwise the state, effects and error are those of `start_node` on the admin record, and a success answers the engine's key and macaroon text. |
| Service.CallStartNode | src/services/admin.rs:266-281 | An unknown key: "node not found" and no change. Otherwise the state, effects and error are those of `start_node` on that record, and a success answers the engine's macaroon text. |
| Service.CallStopNode | src/services/admin.rs:282-302 | Always acknowledges. An unknown key changes nothing. A known key leaves the directory without that key, halts its tasks only if it was running, and writes its record back as Stopped through `update_node`. |
| Service.CallCreateNode | src/services/admin.rs:303-322 | Leaves the configuration alone. The only effects are those of `start_node`, present only when `start` is set and creation succeeded. A creation failure is the answer with the state `create_node` leaves. A success answers the engine's key and macaroon text. With `start`, the state is the one `start_node` leaves, and the command succeeds exactly when that start does, failing with the start's error. |
| Service.CallDeleteNode | src/services/admin.rs:327-337 | The state never changes. An unknown key: "node not found" and no effect. A known key: the single effect is removing that record's data directory, and the command fails with the file system's message exactly when the removal is refused. |
| ServiceProps.UpdateThenGetConfig | src/services/admin.rs:159-178 | `UpdateConfig(url)` answers an acknowledgement, saves the configuration and leaves registry and directory alone. A following `GetConfig` answers `url`. |
| ServiceProps.GetStatusNeverFails | src/services/admin.rs:180-208 | `GetStatus` never fails and changes nothing. `created` reflects the admin record, and `running` reflects directory membership for a registered key. |
| ServiceProps.MissingRecordsAreNotFound | src/services/admin.rs:243-337 | With no admin record, `StartAdmin` fails with "admin node not found, run create first". For an unregistered key, `StartNode` and `DeleteNode` fail with "node not found". All three leave the state unchanged. |
| ServiceProps.DeleteNodeRemovesDataDir | src/services/admin.rs:327-337 | `DeleteNode` on a registered key keeps registry and directory. Its only effect is removing that record's data directory. |
| ServiceProps.StopNodeCommand | src/services/admin.rs:282-302 | `StopNode` always acknowledges. An unregistered key changes nothing. A registered key is removed from the directory with the other entries kept, and tasks are halted only if it was running. Its record is written back as Stopped, the table keeps its length, and every other row is unchanged. |
| ServiceProps.StopNodeIdempotent | src/services/admin.rs:282-302 | A second `StopNode` for the same key changes nothing and halts nothing. |
| ServiceProps.StartNodeIdempotent | src/services/admin.rs:266-281 | After a successful `StartNode` the key is in the directory. A second `StartNode` changes nothing and spawns nothing, in any environment. It gives the same answer when the engine factory answers as it did for the first call. |
| ServiceProps.StartThenStop | src/services/admin.rs:266-302 | `StartNode` followed by `StopNode` leaves the live directory as it was, minus that key. |
| ServiceProps.CreateNodeAssignsUser | src/services/admin.rs:303-322 | `CreateNode` appends a User record on a port no earlier record used, or fails with no change when no port is free. |
| ServiceProps.CreateAdminAssignsAdmin | src/services/admin.rs:210-242 | `CreateAdmin` stores the new backend URL and appends an Admin record on a port no earlier record used. |
| ServiceProps.CreateNodeWithStartRuns | src/services/admin.rs:303-322 | A successful `CreateNode` with `start` answers the key of the record `create_node` made and leaves that key in the live directory. |
| ServiceProps.CreateAdminWithStartRuns | src/services/admin.rs:210-242 | A successful `CreateAdmin` with `start` leaves the key it answers in the live directory. |
| ServiceProps.CreateNodeWithoutRunningAdmin | src/services/admin.rs:358-446 | With no admin record, `CreateNode` fails with `AdminNodeNotCreated`; with an admin that is not running, it fails with `AdminNodeNotStarted`. The directory is untouched, and the inserted User record stays behind with no key. |
| ServiceProps.CreateAdminThenStartAdmin | src/services/admin.rs:210-265 | On a registry with no admin, `CreateAdmin` without start succeeds when the engine factory does, and its macaroon text is non-empty when the factory's macaroons are. A following `StartAdmin` with the same passphrase, under a factory that answers as before, answers the public key and macaroon text reported at creation, and leaves that key in the live directory. |
| ServiceProps.CallKeepsValid | src/services/admin.rs:157-339 | Every command keeps rows numbered by position and ports distinct, and keeps only registered keys in the live directory. |

## Left out

- `ListNodes` and `list_nodes`: they only forward to the registry's paginated query, and the database is not part of this model.
- `get_node_details`: it forwards to the registry's `get_node_by_pubkey` (modelled as `Registry.FindByPubkey`) and the dispatcher never calls it.
- Registry failures: every `?` on a database call is treated as succeeding, because the database implementation is not part of this model.
- `node_info()` and `macaroon.serialize()` are treated as infallible projections of the engine.
- `public_ip::addr().unwrap()` is a fixed address per command; its panic is not modelled.
- Port exhaustion: `portpicker` returning nothing panics ("no ports left") in the source. The model returns the error `NoPortsLeft` with no state change, and the retry loop runs over the finite sequence of offered ports.
- `Node::new` and `Node::new_admin` are in `database/admin.rs`, which is not part of this model. They are assumed to create a Created record with an empty public key and a fresh external id supplied by the environment.
- Lookups by key and of the admin return the earliest matching row; the database's actual choice among duplicates is not visible.
- Concurrency: the tokio mutexes, and the two separate lock acquisitions in `UpdateConfig` and `CreateAdmin` that can lose an update under interleaving. Each lock-held block is one atomic step.
- Engine internals: starting, disconnecting peers, halting the background processor and aborting tasks are the abstract effects `SpawnTasks` and `HaltTasks`.
- Error conversion to the single wire-level `Generic(String)` and the serde shapes of responses. Errors stay typed in the model, and roles and statuses stay enumerations rather than `u8`.
- `config.save()` is the effect `SaveConfig`; its own failure handling is not modelled.
- `macaroon_from_hex_str`, `macaroon_with_session_from_hex_str` and `hours_since_epoch` in `src/utils.rs` wrap a foreign crate or read the clock. `hex_utils` is not part of this model; `Hex` assumes it writes two lower-case digits per byte.
- Paging.Page: `usize` arithmetic is unbounded in the model. `start + page_length` can only overflow for sequences longer than half the address space.
- ServiceProps.StartNodeIdempotent: the same answer is promised only when the second call's engine factory answers as the first one did. The source calls `LightningNode::new` afresh each time, and nothing in it guarantees that a rebuild gives the same key and macaroon.
- The engine factory is a function of the engine request, fixed for one command. `CreateAdmin` and `CreateNode` with `start` build the engine twice, once in `create_node` and again in `start_node`, from equal requests. In the model the second build therefore always returns the first build's engine, and the start step after a successful creation never fails at the build. The source's `LightningNode::new` promises no such thing.
- ServiceProps.CreateAdminThenStartAdmin: assumes the engine factory succeeds, returns non-empty macaroons, and answers the second call as it answered the first. The source promises none of this; it is a property of `LightningNode::new`, which is not part of this model.
- `web-admin/src/nodes/components/NodesList.tsx` is UI rendering with no modelled logic.

=== FILE: common.dfy ===
/** Failure-carrying wrappers shared by every module of the model. */
module Common {

  /** A value that may be absent (Rust's `Option`). */
  datatype Option<+T> = None | Some(value: T)

  /** A value or an error (Rust's `Result`). */
  datatype Result<+T, +E> = Success(value: T) | Failure(error: E)

  function Min(a: int, b: int): int
  {
    if a <= b then a else b
  }
}

=== FILE: hex.dfy ===
/** Lower-case hexadecimal text of a byte string, the form in which serialized capability tokens (macaroons)
    leave the service. */
module Hex {
  import opened Common

  type Byte = b: int | 0 <= b < 256

  /** The character for a digit value below sixteen: `0`-`9`, then `a`-`f`. */
  function Digit(d: nat): (c: char)
    requires d < 16
  {
    if d < 10 then (48 + d) as char else (87 + d) as char
  }

  /** The value of a lower-case hexadecimal digit, if `c` is one. */
  function DigitValue(c: char): (v: Option<nat>)
    ensures v.Some? ==> v.value < 16
  {
    if '0' <= c <= '9' then Some(c as int - 48)
    else if 'a' <= c <= 'f' then Some(c as int - 87)
    else None
  }

  /** `hex_str`: two digits per byte, most significant first. */
  function Encode(bytes: seq<Byte>): (s: string)
    ensures |s| == 2 * |bytes|
  {
    if |bytes| == 0 then ""
    else [Digit(bytes[0] / 16), Digit(bytes[0] % 16)] + Encode(bytes[1..])
  }

  /** A reference inverse of `Encode`, used only to state that the text loses nothing: it reads two digits
      per byte and rejects odd length or a foreign character. */
  function Decode(s: string): (r: Option<seq<Byte>>)
    ensures r.Some? ==> 2 * |r.value| == |s|
    decreases |s|
  {
    if |s| == 0 then Some([])
    else if |s| == 1 then None
    else
      match (DigitValue(s[0]), DigitValue(s[1]), Decode(s[2..]))
      case (Some(hi), Some(lo), Some(rest)) => Some([hi * 16 + lo] + rest)
      case _ => None
  }

  lemma DigitRoundTrip(d: nat)
    requires d < 16
    ensures DigitValue(Digit(d)) == Some(d)
  {
  }

  /** Decoding the text of a token gives back the token's bytes. */
  lemma {:induction false} DecodeEncode(bytes: seq<Byte>)
    ensures Decode(Encode(bytes)) == Some(bytes)
  {
    if |bytes| > 0 {
      var b := bytes[0];
      DigitRoundTrip(b / 16);
      DigitRoundTrip(b % 16);
      DecodeEncode(bytes[1..]);
      var s := Encode(bytes);
      assert s[2..] == Encode(bytes[1..]);
      assert [b] + bytes[1..] == bytes;
    }
  }

  /** The text of a non-empty token is non-empty, and distinct tokens have distinct texts. */
  lemma EncodeInjective(a: seq<Byte>, b: seq<Byte>)
    ensures |a| > 0 ==> |Encode(a)| > 0
    ensures Encode(a) == Encode(b) ==> a == b
  {
    DecodeEncode(a);
    DecodeEncode(b);
  }
}

=== FILE: lifecycle.dfy ===
/** Node lifecycle steps of the orchestration service (`src/services/admin.rs`): building an engine for a
    record, starting and stopping it in the live-node directory, creating a record on a free port and
    removing a node's data directory. Each lock-protected block is one atomic transition of `State`. */
module Lifecycle {
  import opened Common
  import opened Registry
  import Hex

  datatype Network = Bitcoin | Testnet | Signet | Regtest

  /** The network's display name, used as a path component of every node's data directory. */
  function NetworkName(n: Network): string
  {
    match n
    case Bitcoin => "bitcoin"
    case Testnet => "testnet"
    case Signet => "signet"
    case Regtest => "regtest"
  }

  /** Global configuration: the Electrum backend URL and the network. */
  datatype Config = Config(electrumUrl: string, network: Network)

  /** Identity of a routing graph together with its gossip message handler. */
  type Graph = nat

  /** What the service uses of a Lightning engine: its public key, its serialized macaroon and the routing
      graph it works with. */
  datatype Engine = Engine(pubkey: string, macaroon: seq<Hex.Byte>, graph: Graph)

  /** A running node: it owns the engine's background tasks (left abstract) and shares the engine. */
  datatype NodeHandle = NodeHandle(engine: Engine)

  /** `LightningNodeConfig` as `get_node_config` fills it in. */
  datatype EngineConfig = EngineConfig(
    electrumUrl: string,
    dataDir: string,
    listenPort: Port,
    nodeName: string,
    network: Network,
    passphrase: string,
    externalRouter: bool)

  /** The arguments of `LightningNode::new`: a configuration and, for a tenant, the admin's routing graph. */
  datatype EngineRequest = EngineRequest(config: EngineConfig, router: Option<Graph>)

  /** The service: its data directory, the configuration, the registry and the live-node directory. */
  datatype State = State(
    dataDir: string,
    config: Config,
    registry: Registry,
    directory: map<string, NodeHandle>)

  /** Everything outside the service, fixed for one request: the engine factory, the public address,
      the ports the port picker offers in turn (it gives up after the last), the identifier given to a new
      record, and the file system's answer to removing a directory (an error message or nothing). */
  datatype Env = Env(
    newEngine: EngineRequest -> Result<Engine, string>,
    publicAddr: string,
    portCandidates: seq<Port>,
    externalId: string,
    removeDir: string -> Option<string>)

  /** Side effects on the world outside the three maps. */
  datatype Effect =
    | SaveConfig(config: Config)
    | SpawnTasks(pubkey: string)
    | HaltTasks(pubkey: string)
    | RemoveDir(path: string)

  datatype Error =
    | Generic(msg: string)
    | AdminNodeNotCreated
    | AdminNodeNotStarted
    | EngineFailure(msg: string)
    | Io(msg: string)
    | NoPortsLeft

  /** The state after a step, the effects it caused in order, and its answer. A failed step keeps the
      changes it made before failing: nothing is rolled back. */
  datatype Outcome<T> = Outcome(state: State, effects: seq<Effect>, result: Result<T, Error>)

  /** The invariants every command keeps: rows are numbered by position, no two rows share a port,
      and the directory only holds public keys the registry knows. */
  predicate Valid(st: State)
  {
    && WellFormed(st.registry)
    && PortsDistinct(st.registry)
    && forall k :: k in st.directory ==> Registered(st.registry, k)
  }

  /** `<data_dir>/<network>/<external_id>`. */
  function DataDir(st: State, node: Node): string
  {
    st.dataDir + "/" + NetworkName(st.config.network) + "/" + node.externalId
  }

  /** `get_node_config`: the engine configuration of a record under the current configuration. */
  function NodeConfig(st: State, node: Node, passphrase: string): (c: EngineConfig)
    ensures c.externalRouter <==> node.role == User
    ensures c.electrumUrl == st.config.electrumUrl && c.network == st.config.network
    ensures c.listenPort == node.listenPort && c.nodeName == node.alias && c.passphrase == passphrase
    ensures c.dataDir == DataDir(st, node)
  {
    EngineConfig(st.config.electrumUrl, DataDir(st, node), node.listenPort, node.alias,
                 st.config.network, passphrase, node.IsUser())
  }

  /** Nodes with different external identifiers never share a data directory, and the identifier is the
      directory's last path component under `<data_dir>/<network>/`. */
  lemma DataDirSeparatesNodes(st: State, a: Node, b: Node)
    ensures var prefix := st.dataDir + "/" + NetworkName(st.config.network) + "/";
      DataDir(st, a) == prefix + a.externalId
    ensures a.externalId != b.externalId ==> DataDir(st, a) != DataDir(st, b)
  {
    var prefix := st.dataDir + "/" + NetworkName(st.config.network) + "/";
    assert DataDir(st, a) == prefix + a.externalId;
    assert DataDir(st, b) == prefix + b.externalId;
    if DataDir(st, a) == DataDir(st, b) {
      assert a.externalId == DataDir(st, a)[|prefix|..];
      assert b.externalId == DataDir(st, b)[|prefix|..];
    }
  }

  /** The routing graph a tenant engine borrows: that of the admin engine in the live directory. */
  function AdminGraph(st: State): Result<Graph, Error>
  {
    match GetAdmin(st.registry)
    case None => Failure(AdminNodeNotCreated)
    case Some(admin) =>
      if admin.pubkey in st.directory then Success(st.directory[admin.pubkey].engine.graph)
      else Failure(AdminNodeNotStarted)
  }

  /** The engine request for a record: a tenant borrows the routing graph of the running admin engine. */
  function EngineRequestFor(st: State, node: Node, passphrase: string): Result<EngineRequest, Error>
  {
    var config := NodeConfig(st, node, passphrase);
    if node.IsUser() then
      match AdminGraph(st)
      case Failure(e) => Failure(e)
      case Success(graph) => Success(EngineRequest(config, Some(graph)))
    else
      Success(EngineRequest(config, None))
  }

  /** Two builds agree when they see the same configuration for the record and, for a tenant, the same
      admin graph. */
  lemma GetNodeDependsOn(st1: State, st2: State, env: Env, n1: Node, n2: Node, passphrase: string)
    requires n1.role == n2.role
    requires NodeConfig(st1, n1, passphrase) == NodeConfig(st2, n2, passphrase)
    requires n1.IsUser() ==> AdminGraph(st1) == AdminGraph(st2)
    ensures GetNode(st1, env, n1, passphrase) == GetNode(st2, env, n2, passphrase)
  {
    assert EngineRequestFor(st1, n1, passphrase) == EngineRequestFor(st2, n2, passphrase);
  }

  function FromEngine(r: Result<Engine, string>): Result<Engine, Error>
  {
    match r
    case Success(e) => Success(e)
    case Failure(msg) => Failure(EngineFailure(msg))
  }

  /** `get_node`: builds an engine for the record. A tenant needs an admin record whose engine is in the
      directory and is handed that engine's routing graph; the admin is built without one. */
  function GetNode(st: State, env: Env, node: Node, passphrase: string): (r: Result<Engine, Error>)
    ensures node.IsUser() && GetAdmin(st.registry).None? ==> r == Failure(AdminNodeNotCreated)
    ensures node.IsUser() && GetAdmin(st.registry).Some? && GetAdmin(st.registry).value.pubkey !in st.directory
      ==> r == Failure(AdminNodeNotStarted)
    ensures node.IsUser() && GetAdmin(st.registry).Some? && GetAdmin(st.registry).value.pubkey in st.directory
      ==> var shared := st.directory[GetAdmin(st.registry).value.pubkey].engine.graph;
          r == FromEngine(env.newEngine(EngineRequest(NodeConfig(st, node, passphrase), Some(shared))))
    ensures !node.IsUser() ==> r == FromEngine(env.newEngine(EngineRequest(NodeConfig(st, node, passphrase), None)))
  {
    match EngineRequestFor(st, node, passphrase)
    case Failure(e) => Failure(e)
    case Success(request) => FromEngine(env.newEngine(request))
  }

  /** `start_node`: builds the engine first; then, only if no handle is present under the record's key,
      starts it, inserts its handle and writes the record back as Running at the current public address. */
  function Start(st: State, env: Env, node: Node, passphrase: string): (o: Outcome<Engine>)
    ensures o.state.config == st.config && o.state.dataDir == st.dataDir
    ensures |o.state.registry.nodes| == |st.registry.nodes|
    ensures GetNode(st, env, node, passphrase).Failure? ==>
      o == Outcome(st, [], Failure(GetNode(st, env, node, passphrase).error))
    ensures node.pubkey in st.directory ==>
      o.state == st && o.effects == [] && o.result == GetNode(st, env, node, passphrase)
    ensures node.pubkey !in st.directory && GetNode(st, env, node, passphrase).Success? ==>
      && o.result == GetNode(st, env, node, passphrase)
      && o.state.directory == st.directory[node.pubkey := NodeHandle(o.result.value)]
      && o.state.registry == Update(st.registry, node.(status := Running, listenAddr := env.publicAddr))
      && o.effects == [SpawnTasks(node.pubkey)]
  {
    match GetNode(st, env, node, passphrase)
    case Failure(e) => Outcome(st, [], Failure(e))
    case Success(engine) =>
      if node.pubkey in st.directory then
        Outcome(st, [], Success(engine))
      else
        var running := node.(status := Running, listenAddr := env.publicAddr);
        var st' := st.(directory := st.directory[node.pubkey := NodeHandle(engine)],
                       registry := Update(st.registry, running));
        Outcome(st', [SpawnTasks(node.pubkey)], Success(engine))
  }

  /** `stop_node`: removes the handle under `pubkey` if there is one, halting its tasks; never fails. */
  function Stop(st: State, pubkey: string): (o: Outcome<()>)
    ensures o.result.Success?
    ensures o.state.registry == st.registry && o.state.config == st.config && o.state.dataDir == st.dataDir
    ensures pubkey !in st.directory ==> o.state == st && o.effects == []
    ensures pubkey in st.directory ==> o.effects == [HaltTasks(pubkey)]
    ensures o.state.directory.Keys == st.directory.Keys - {pubkey}
    ensures forall k :: k in o.state.directory ==> o.state.directory[k] == st.directory[k]
  {
    if pubkey in st.directory then
      Outcome(st.(directory := st.directory - {pubkey}), [HaltTasks(pubkey)], Success(()))
    else
      Outcome(st, [], Success(()))
  }

  /** The port-picking loop of `create_node`: the first offered port no row listens on. */
  function PickPort(r: Registry, candidates: seq<Port>): (p: Option<Port>)
    ensures p.Some? ==> p.value in candidates && !PortInUse(r, p.value)
    ensures p.None? <==> forall k :: 0 <= k < |candidates| ==> PortInUse(r, candidates[k])
    decreases |candidates|
  {
    if |candidates| == 0 then None
    else if !PortInUse(r, candidates[0]) then Some(candidates[0])
    else PickPort(r, candidates[1..])
  }

  /** The same loop written as the source writes it: draw, test against the registry, draw again. */
  method AllocatePort(r: Registry, candidates: seq<Port>) returns (p: Option<Port>)
    ensures p == PickPort(r, candidates)
    ensures p.Some? ==>
      exists k :: 0 <= k < |candidates| && candidates[k] == p.value && forall j :: 0 <= j < k ==> PortInUse(r, candidates[j])
  {
    var k := 0;
    while k < |candidates| && PortInUse(r, candidates[k])
      invariant 0 <= k <= |candidates|
      invariant forall j :: 0 <= j < k ==> PortInUse(r, candidates[j])
      invariant PickPort(r, candidates) == PickPort(r, candidates[k..])
    {
      assert candidates[k..][1..] == candidates[k + 1..];
      k := k + 1;
    }
    if k < |candidates| {
      p := Some(candidates[k]);
    } else {
      p := None;
    }
  }

  /** `Node::new` / `Node::new_admin`: a fresh record, status Created, with no public key yet. */
  function NewRecord(role: Role, username: string, alias: string, network: string, listenAddr: string,
                     port: Port, externalId: string): Node
  {
    Node(0, role, Created, username, alias, network, listenAddr, port, "", externalId)
  }

  /** `create_node`: picks a free port, inserts the record, builds its engine and writes the engine's public
      key back onto the record. If the engine cannot be built the inserted record stays behind. */
  function Create(st: State, env: Env, username: string, alias: string, passphrase: string, role: Role)
    : (o: Outcome<(Engine, Node)>)
    ensures o.effects == []
    ensures o.state.directory == st.directory && o.state.config == st.config && o.state.dataDir == st.dataDir
    ensures PickPort(st.registry, env.portCandidates).None? <==> o.result == Failure(NoPortsLeft)
    ensures o.result == Failure(NoPortsLeft) ==> o.state == st
    ensures o.result != Failure(NoPortsLeft) ==>
      && |o.state.registry.nodes| == |st.registry.nodes| + 1
      && o.state.registry.nodes[..|st.registry.nodes|] == st.registry.nodes
      && var row := o.state.registry.nodes[|st.registry.nodes|];
         && row.id == |st.registry.nodes| && row.role == role && row.status == Created
         && row.username == username && row.alias == alias && row.externalId == env.externalId
         && row.network == NetworkName(st.config.network) && row.listenAddr == env.publicAddr
         && !PortInUse(st.registry, row.listenPort) && row.listenPort in env.portCandidates
         && (o.result.Failure? ==> row.pubkey == "")
         && (o.result.Success? ==> o.result.value.1 == row && row.pubkey == o.result.value.0.pubkey)
    ensures PickPort(st.registry, env.portCandidates).Some? ==>
      var row := NewRecord(role, username, alias, NetworkName(st.config.network), env.publicAddr,
                           PickPort(st.registry, env.portCandidates).value, env.externalId);
      var inserted := st.(registry := Insert(st.registry, row));
      var built := GetNode(inserted, env, row.(id := |st.registry.nodes|), passphrase);
      && (o.result.Success? <==> built.Success?)
      && (built.Failure? ==> o == Outcome(inserted, [], Failure(built.error)))
      && (built.Success? ==> o.result.value.0 == built.value)
      && (built.Success? ==>
            o.state.registry.nodes[|st.registry.nodes|]
            == row.(id := |st.registry.nodes|, pubkey := built.value.pubkey))
  {
    match PickPort(st.registry, env.portCandidates)
    case None => Outcome(st, [], Failure(NoPortsLeft))
    case Some(port) =>
      var row := NewRecord(role, username, alias, NetworkName(st.config.network), env.publicAddr, port,
                             env.externalId);
      var inserted := st.(registry := Insert(st.registry, row));
      var node := row.(id := |st.registry.nodes|);
      match GetNode(inserted, env, node, passphrase)
      case Failure(e) => Outcome(inserted, [], Failure(e))
      case Success(engine) =>
        var named := node.(pubkey := engine.pubkey);
        Outcome(inserted.(registry := Update(inserted.registry, named)), [], Success((engine, named)))
  }

  /** `delete_node`: removes the record's data directory; the registry and the directory are untouched. */
  function DeleteData(st: State, env: Env, node: Node): (o: Outcome<()>)
    ensures o.state == st
    ensures o.effects == [RemoveDir(DataDir(st, node))]
    ensures o.result.Success? <==> env.removeDir(DataDir(st, node)).None?
  {
    var path := NodeConfig(st, node, "").dataDir;
    match env.removeDir(path)
    case Some(msg) => Outcome(st, [RemoveDir(path)], Failure(Io(msg)))
    case None => Outcome(st, [RemoveDir(path)], Success(()))
  }
}

/** Invariant preservation for the lifecycle steps. */
module LifecycleInvariants {
  import opened Common
  import opened Registry
  import opened Lifecycle

  /** A rewrite of row `n.id` that keeps the row's key and port keeps every directory key registered. */
  lemma RewriteKeepsDirectoryRegistered(reg: Registry, n: Node, dir: map<string, NodeHandle>)
    requires n.id < |reg.nodes| && n.pubkey == reg.nodes[n.id].pubkey
    requires forall k :: k in dir ==> Registered(reg, k)
    ensures forall k :: k in dir ==> Registered(Update(reg, n), k)
  {
    var reg' := Update(reg, n);
    forall k | k in dir
      ensures Registered(reg', k)
    {
      var i :| 0 <= i < |reg.nodes| && reg.nodes[i].pubkey == k;
      assert reg'.nodes[i].pubkey == k;
    }
  }

  /** Starting a record read from the registry keeps the service invariants. */
  lemma StartKeepsValid(st: State, env: Env, node: Node, passphrase: string)
    requires Valid(st)
    requires node.id < |st.registry.nodes| && st.registry.nodes[node.id] == node
    ensures Valid(Start(st, env, node, passphrase).state)
  {
    var o := Start(st, env, node, passphrase);
    if node.pubkey !in st.directory && o.result.Success? {
      var running := node.(status := Running, listenAddr := env.publicAddr);
      UpdateKeepsShape(st.registry, running);
      RewriteKeepsDirectoryRegistered(st.registry, running, st.directory);
      assert o.state.registry.nodes[node.id].pubkey == node.pubkey;
    }
  }

  /** Creating a record keeps the service invariants: its port was free and the directory is unchanged. */
  lemma CreateKeepsValid(st: State, env: Env, username: string, alias: string, passphrase: string, role: Role)
    requires Valid(st)
    ensures Valid(Create(st, env, username, alias, passphrase, role).state)
  {
    var o := Create(st, env, username, alias, passphrase, role);
    if o.result != Failure(NoPortsLeft) {
      var before := st.registry;
      var reg := o.state.registry;
      var row := reg.nodes[|before.nodes|];
      var inserted := Insert(before, row.(pubkey := ""));
      assert inserted.nodes == before.nodes + [row.(pubkey := "")];
      assert WellFormed(inserted) && PortsDistinct(inserted);
      if o.result.Success? {
        assert reg == Update(inserted, row);
        UpdateKeepsShape(inserted, row);
      } else {
        assert reg == inserted;
      }
      forall k | k in o.state.directory
        ensures Registered(reg, k)
      {
        var i :| 0 <= i < |before.nodes| && before.nodes[i].pubkey == k;
        assert reg.nodes[i] == before.nodes[i];
      }
    }
  }
}

=== FILE: paging.dfy ===
/** The paged view of `src/utils.rs`: a borrowed sequence read one fixed-size page at a time. */
module Paging {
  import opened Common

  /** `PagedVec::new(vec, page_length)`: the view only borrows `vec`, it never copies or changes it. */
  datatype PagedVec<T> = PagedVec(vec: seq<T>, pageLength: nat)

  /** `page(index)`: the page holding logical position `index`, with the position's offset inside it.
      `index % page_length` is only evaluated when `index < len`, so only then must the length be positive. */
  function Page<T>(p: PagedVec<T>, index: nat): (r: Option<(nat, seq<T>)>)
    requires index < |p.vec| ==> p.pageLength > 0
    ensures r.None? <==> index >= |p.vec|
    ensures r.Some? ==>
      var (offset, slice) := r.value;
      var start := index - offset;
      && 0 < |slice| <= p.pageLength
      && offset < |slice|
      && slice[offset] == p.vec[index]
      && 0 <= start && start % p.pageLength == 0
      && start + |slice| <= |p.vec|
      && slice == p.vec[start..start + |slice|]
      && (start + |slice| == |p.vec| || |slice| == p.pageLength)
  {
    if index < |p.vec| then
      var offset := index % p.pageLength;
      var start := index - offset;
      StartAligned(index, p.pageLength);
      var end := Min(|p.vec|, start + p.pageLength);
      Some((offset, p.vec[start..end]))
    else
      None
  }

  /** Reference definition: `s` cut from the front into pages of `n` elements, the last one possibly shorter. */
  function Chunks<T>(s: seq<T>, n: nat): (cs: seq<seq<T>>)
    requires n > 0
    decreases |s|
  {
    if |s| == 0 then []
    else if |s| <= n then [s]
    else [s[..n]] + Chunks(s[n..], n)
  }

  function Flatten<T>(cs: seq<seq<T>>): seq<T>
  {
    if |cs| == 0 then [] else cs[0] + Flatten(cs[1..])
  }

  /** Read in order, the pages give back exactly `s`. */
  lemma {:induction false} ChunksFlatten<T>(s: seq<T>, n: nat)
    requires n > 0
    ensures Flatten(Chunks(s, n)) == s
    decreases |s|
  {
    if |s| == 0 {
    } else if |s| <= n {
      assert Flatten([s]) == s + Flatten([]);
    } else {
      ChunksFlatten(s[n..], n);
      var cs := Chunks(s, n);
      assert cs[1..] == Chunks(s[n..], n);
      assert s[..n] + s[n..] == s;
    }
  }

  /** There are `ceil(|s| / n)` pages, none empty and none longer than `n`. */
  lemma {:induction false} ChunksShape<T>(s: seq<T>, n: nat)
    requires n > 0
    ensures |Chunks(s, n)| == (|s| + n - 1) / n
    ensures forall k :: 0 <= k < |Chunks(s, n)| ==> 0 < |Chunks(s, n)[k]| <= n
    decreases |s|
  {
    if |s| == 0 {
      DivModUnique(n - 1, n, 0, n - 1);
    } else if |s| <= n {
      DivModUnique(|s| + n - 1, n, 1, |s| - 1);
    } else {
      ChunksShape(s[n..], n);
      DivShift(|s| + n - 1, n);
      var cs := Chunks(s, n);
      assert cs[1..] == Chunks(s[n..], n);
      forall k | 0 <= k < |cs|
        ensures 0 < |cs[k]| <= n
      {
        if k > 0 {
          assert cs[k] == cs[1..][k - 1];
        }
      }
    }
  }

  lemma MulStep(k: int, n: int)
    ensures (k - 1) * n == k * n - n
  {
  }

  lemma MulAtLeast(k: int, n: int)
    requires k >= 1 && n > 0
    ensures k * n >= n
    decreases k
  {
    if k > 1 {
      MulAtLeast(k - 1, n);
      MulStep(k, n);
    }
  }

  /** Euclidean division has one quotient and one remainder. */
  lemma DivModUnique(a: int, n: int, q: int, r: int)
    requires n > 0 && 0 <= r < n && a == q * n + r
    ensures a / n == q && a % n == r
  {
    var q0, r0 := a / n, a % n;
    assert a == q0 * n + r0 && 0 <= r0 < n;
    if q > q0 {
      MulAtLeast(q - q0, n);
    } else if q < q0 {
      MulAtLeast(q0 - q, n);
    }
  }

  /** Subtracting the start of a page leaves a multiple of the page length. */
  lemma StartAligned(i: int, n: int)
    requires n > 0
    ensures 0 <= i % n < n
    ensures (i - i % n) % n == 0
  {
    DivModUnique(i - i % n, n, i / n, 0);
  }

  /** Skipping one whole page lowers the page number by one and keeps the offset. */
  lemma DivShift(a: int, n: int)
    requires n > 0 && a >= n
    ensures (a - n) / n == a / n - 1
    ensures (a - n) % n == a % n
  {
    MulStep(a / n, n);
    DivModUnique(a - n, n, a / n - 1, a % n);
  }

  /** A slice of the tail after `n` elements is the same slice of `s`, shifted by `n`. */
  lemma SliceOfTail<T>(s: seq<T>, n: nat, lo: nat, hi: nat)
    requires n <= lo <= hi <= |s|
    ensures s[n..][lo - n..hi - n] == s[lo..hi]
  {
    var tail := s[n..];
    forall k | 0 <= k < hi - lo
      ensures tail[lo - n..hi - n][k] == s[lo..hi][k]
    {
      assert tail[lo - n + k] == s[lo + k];
    }
  }

  /** On the first page the piece is the prefix of at most `n` elements. */
  lemma ChunkAtFirst<T>(s: seq<T>, n: nat, i: nat)
    requires n > 0 && i < |s| && i < n
    ensures i / n < |Chunks(s, n)|
    ensures Chunks(s, n)[i / n] == s[i - i % n..Min(|s|, i - i % n + n)]
  {
    DivModUnique(i, n, 0, i);
    if |s| > n {
      assert Chunks(s, n)[0] == s[..n];
    } else {
      assert Chunks(s, n) == [s];
      assert s[0..|s|] == s;
    }
  }

  /** Piece number `i / n` of the reference cut runs from `i - i % n` to the end of that page. */
  lemma {:induction false} ChunkAt<T>(s: seq<T>, n: nat, i: nat)
    requires n > 0 && i < |s|
    ensures i / n < |Chunks(s, n)|
    ensures Chunks(s, n)[i / n] == s[i - i % n..Min(|s|, i - i % n + n)]
    decreases |s|
  {
    if i < n {
      ChunkAtFirst(s, n, i);
    } else {
      DivShift(i, n);
      ChunkAt(s[n..], n, i - n);
      var cs, rest := Chunks(s, n), Chunks(s[n..], n);
      assert cs[1..] == rest;
      assert cs[i / n] == rest[(i - n) / n];
      var start := i - i % n;
      SliceOfTail(s, n, start, Min(|s|, start + n));
    }
  }

  /** `page(i)` is exactly piece number `i / page_length` of the reference cut, at offset `i % page_length`. */
  lemma PageIsChunk<T>(s: seq<T>, n: nat, i: nat)
    requires n > 0 && i < |s|
    ensures i / n < |Chunks(s, n)|
    ensures Page(PagedVec(s, n), i) == Some((i % n, Chunks(s, n)[i / n]))
  {
    ChunkAt(s, n, i);
  }

  /** With ten elements and pages of three: pages of length 3, 3, 3, then 1, then no page. */
  lemma WorkedExample<T>(s: seq<T>)
    requires |s| == 10
    ensures Page(PagedVec(s, 3), 0).Some? && |Page(PagedVec(s, 3), 0).value.1| == 3
    ensures Page(PagedVec(s, 3), 3).Some? && |Page(PagedVec(s, 3), 3).value.1| == 3
    ensures Page(PagedVec(s, 3), 6).Some? && |Page(PagedVec(s, 3), 6).value.1| == 3
    ensures Page(PagedVec(s, 3), 9).Some? && |Page(PagedVec(s, 3), 9).value.1| == 1
    ensures Page(PagedVec(s, 3), 10).None?
  {
  }
}

=== FILE: registry.dfy ===
/** The persisted node registry, seen through the queries the orchestration service makes of it:
    lookup of the admin record, lookup by public key, insert, update and the port-in-use check. */
module Registry {
  import opened Common

  /** A TCP listening port (`u16`). */
  type Port = p: int | 0 <= p < 0x1_0000

  datatype Role = Admin | User

  datatype Status = Created | Running | Stopped

  /** A node record. `pubkey` is empty until the engine built for the record reports its key. */
  datatype Node = Node(
    id: nat,
    role: Role,
    status: Status,
    username: string,
    alias: string,
    network: string,
    listenAddr: string,
    listenPort: Port,
    pubkey: string,
    externalId: string)
  {
    predicate IsUser()
    {
      role == User
    }
  }

  /** The node table in insertion order; the identifier the registry assigns to a row is its position. */
  datatype Registry = Registry(nodes: seq<Node>)

  /** Every row carries its own position as its identifier. */
  predicate WellFormed(r: Registry)
  {
    forall i :: 0 <= i < |r.nodes| ==> r.nodes[i].id == i
  }

  /** `port_in_use`: some row already listens on `port`. */
  predicate PortInUse(r: Registry, port: Port)
  {
    exists i :: 0 <= i < |r.nodes| && r.nodes[i].listenPort == port
  }

  /** No two rows share a listening port. */
  predicate PortsDistinct(r: Registry)
  {
    forall i, j :: 0 <= i < j < |r.nodes| ==> r.nodes[i].listenPort != r.nodes[j].listenPort
  }

  /** Some row carries public key `pubkey`. */
  predicate Registered(r: Registry, pubkey: string)
  {
    exists i :: 0 <= i < |r.nodes| && r.nodes[i].pubkey == pubkey
  }

  /** The first position at or after `i` whose row satisfies `p`. */
  function FirstFrom(nodes: seq<Node>, p: Node -> bool, i: nat): (k: Option<nat>)
    requires i <= |nodes|
    ensures k.Some? ==> i <= k.value < |nodes| && p(nodes[k.value])
    ensures k.Some? ==> forall j :: i <= j < k.value ==> !p(nodes[j])
    ensures k.None? <==> forall j :: i <= j < |nodes| ==> !p(nodes[j])
    decreases |nodes| - i
  {
    if i == |nodes| then None
    else if p(nodes[i]) then Some(i)
    else FirstFrom(nodes, p, i + 1)
  }

  function IndexOfPubkey(r: Registry, pubkey: string): Option<nat>
  {
    FirstFrom(r.nodes, (n: Node) => n.pubkey == pubkey, 0)
  }

  function IndexOfAdmin(r: Registry): Option<nat>
  {
    FirstFrom(r.nodes, (n: Node) => n.role == Admin, 0)
  }

  /** `get_node_by_pubkey`: the earliest row with that key, or nothing when no row has it. */
  function FindByPubkey(r: Registry, pubkey: string): (n: Option<Node>)
    ensures n.None? <==> !Registered(r, pubkey)
    ensures n.Some? ==> n.value.pubkey == pubkey && n.value in r.nodes
    ensures n.Some? && WellFormed(r) ==> n.value.id < |r.nodes| && r.nodes[n.value.id] == n.value
  {
    match IndexOfPubkey(r, pubkey)
    case Some(k) => Some(r.nodes[k])
    case None => None
  }

  /** `get_admin_node`: the earliest row with role Admin, or nothing when there is none. */
  function GetAdmin(r: Registry): (n: Option<Node>)
    ensures n.None? <==> forall i :: 0 <= i < |r.nodes| ==> r.nodes[i].role != Admin
    ensures n.Some? ==> n.value.role == Admin && n.value in r.nodes
    ensures n.Some? && WellFormed(r) ==> n.value.id < |r.nodes| && r.nodes[n.value.id] == n.value
  {
    match IndexOfAdmin(r)
    case Some(k) => Some(r.nodes[k])
    case None => None
  }

  /** `create_node`: appends `n` under the next free identifier. */
  function Insert(r: Registry, n: Node): (r': Registry)
    ensures |r'.nodes| == |r.nodes| + 1 && r'.nodes[..|r.nodes|] == r.nodes
    ensures r'.nodes[|r.nodes|] == n.(id := |r.nodes|)
    ensures WellFormed(r) ==> WellFormed(r')
    ensures PortsDistinct(r) && !PortInUse(r, n.listenPort) ==> PortsDistinct(r')
  {
    Registry(r.nodes + [n.(id := |r.nodes|)])
  }

  /** `update_node`: overwrites the row whose identifier is `n.id`; no such row means no change. */
  function Update(r: Registry, n: Node): (r': Registry)
    ensures |r'.nodes| == |r.nodes|
    ensures forall i :: 0 <= i < |r.nodes| && i != n.id ==> r'.nodes[i] == r.nodes[i]
    ensures n.id < |r.nodes| ==> r'.nodes[n.id] == n
    ensures n.id >= |r.nodes| ==> r' == r
  {
    if n.id < |r.nodes| then Registry(r.nodes[n.id := n]) else r
  }

  /** Rewriting a row in place, without moving its port, keeps the table well formed and its ports distinct. */
  lemma UpdateKeepsShape(r: Registry, n: Node)
    requires WellFormed(r) && PortsDistinct(r)
    requires n.id < |r.nodes| && n.listenPort == r.nodes[n.id].listenPort
    ensures WellFormed(Update(r, n)) && PortsDistinct(Update(r, n))
  {
    var r' := Update(r, n);
    forall i, j | 0 <= i < j < |r'.nodes|
      ensures r'.nodes[i].listenPort != r'.nodes[j].listenPort
    {
      assert r'.nodes[i].listenPort == r.nodes[i].listenPort;
      assert r'.nodes[j].listenPort == r.nodes[j].listenPort;
    }
  }

  /** Rewriting a row without changing its key or role leaves both lookups on the same row. */
  lemma UpdateKeepsLookups(r: Registry, n: Node, pubkey: string)
    requires WellFormed(r) && n.id < |r.nodes|
    requires n.pubkey == r.nodes[n.id].pubkey && n.role == r.nodes[n.id].role
    ensures FindByPubkey(r, pubkey).Some? <==> FindByPubkey(Update(r, n), pubkey).Some?
    ensures FindByPubkey(r, pubkey).Some? ==>
      FindByPubkey(Update(r, n), pubkey).value == Update(r, n).nodes[FindByPubkey(r, pubkey).value.id]
    ensures GetAdmin(r).Some? <==> GetAdmin(Update(r, n)).Some?
    ensures GetAdmin(r).Some? ==> GetAdmin(Update(r, n)).value == Update(r, n).nodes[GetAdmin(r).value.id]
  {
    var r' := Update(r, n);
    var byKey := (m: Node) => m.pubkey == pubkey;
    var isAdmin := (m: Node) => m.role == Admin;
    FirstSame(r.nodes, r'.nodes, byKey, 0);
    FirstSame(r.nodes, r'.nodes, isAdmin, 0);
  }

  /** Two tables that agree row by row on `p` have the same first row satisfying `p`. */
  lemma {:induction false} FirstSame(a: seq<Node>, b: seq<Node>, p: Node -> bool, i: nat)
    requires |a| == |b| && i <= |a|
    requires forall j :: 0 <= j < |a| ==> p(a[j]) == p(b[j])
    ensures FirstFrom(a, p, i) == FirstFrom(b, p, i)
    decreases |a| - i
  {
    if i < |a| && !p(a[i]) {
      FirstSame(a, b, p, i + 1);
    }
  }
}

/** How the registry lookups see a newly appended row. */
module RegistryAppend {
  import opened Common
  import opened Registry

  lemma {:induction false} FirstAppend(nodes: seq<Node>, x: Node, p: Node -> bool, i: nat)
    requires i <= |nodes|
    ensures FirstFrom(nodes, p, i).Some? ==> FirstFrom(nodes + [x], p, i) == FirstFrom(nodes, p, i)
    ensures FirstFrom(nodes, p, i).None? ==> FirstFrom(nodes + [x], p, i) == (if p(x) then Some(|nodes|) else None)
    decreases |nodes| - i
  {
    var ext := nodes + [x];
    if i == |nodes| {
      assert ext[i] == x;
      if !p(x) {
        assert FirstFrom(ext, p, i + 1) == None;
      }
    } else {
      assert ext[i] == nodes[i];
      FirstAppend(nodes, x, p, i + 1);
    }
  }

  /** Appending a tenant row leaves the admin lookup as it was; appending an admin row where there was no
      admin makes that row the admin. */
  lemma AdminAfterAppend(r: Registry, x: Node)
    ensures x.role != Admin ==> GetAdmin(Registry(r.nodes + [x])) == GetAdmin(r)
    ensures x.role == Admin && GetAdmin(r).None? ==> GetAdmin(Registry(r.nodes + [x])) == Some(x)
  {
    FirstAppend(r.nodes, x, (n: Node) => n.role == Admin, 0);
    assert (r.nodes + [x])[|r.nodes|] == x;
  }
}

=== FILE: service.dfy ===
/** The closed command protocol of the orchestration service and its dispatcher (`AdminService::call`). */
module Service {
  import opened Common
  import opened Registry
  import opened Lifecycle
  import Hex

  datatype Request =
    | GetConfig
    | UpdateConfig(electrumUrl: string)
    | GetStatus(pubkey: string)
    | CreateAdmin(username: string, alias: string, passphrase: string, electrumUrl: string, start: bool)
    | StartAdmin(passphrase: string)
    | CreateNode(username: string, alias: string, passphrase: string, start: bool)
    | DeleteNode(pubkey: string)
    | StartNode(pubkey: string, passphrase: string)
    | StopNode(pubkey: string)

  datatype Response =
    | CurrentConfig(electrumUrl: string)
    | ConfigUpdated
    | Status(report: StatusReport)
    | AdminCreated(pubkey: string, macaroon: string, externalId: string, role: Role)
    | AdminStarted(pubkey: string, macaroon: string)
    | NodeCreated(pubkey: string, macaroon: string)
    | NodeDeleted
    | NodeStarted(macaroon: string)
    | NodeStopped

  /** The fields of a `GetStatus` answer; the identity fields are empty for an unknown key. */
  datatype StatusReport = StatusReport(
    alias: Option<string>,
    created: bool,
    running: bool,
    authenticated: bool,
    pubkey: Option<string>,
    username: Option<string>,
    role: Option<Role>)

  const AdminNotFound: string := "admin node not found, run create first"
  const NodeNotFound: string := "node not found"

  /** The configuration with its backend URL replaced. */
  function WithUrl(st: State, url: string): (st': State)
    ensures st'.config.electrumUrl == url && st'.config.network == st.config.network
    ensures st'.registry == st.registry && st'.directory == st.directory && st'.dataDir == st.dataDir
  {
    st.(config := st.config.(electrumUrl := url))
  }

  /** The answer to `GetStatus`: whether an admin exists, and what the registry and the directory say of
      `pubkey`; an unknown key is answered, not refused. */
  function StatusOf(st: State, pubkey: string): (r: StatusReport)
    ensures r.pubkey == Some(pubkey)
    ensures r.created <==> exists i :: 0 <= i < |st.registry.nodes| && st.registry.nodes[i].role == Admin
    ensures !Registered(st.registry, pubkey) ==>
      !r.running && !r.authenticated && r.alias.None? && r.username.None? && r.role.None?
    ensures Registered(st.registry, pubkey) ==>
      && (r.running <==> pubkey in st.directory)
      && r.authenticated
      && r.alias.Some? && r.username.Some? && r.role.Some?
      && exists i :: 0 <= i < |st.registry.nodes| && st.registry.nodes[i].pubkey == pubkey
           && r.alias.value == st.registry.nodes[i].alias && r.username.value == st.registry.nodes[i].username
           && r.role.value == st.registry.nodes[i].role
  {
    var created := GetAdmin(st.registry).Some?;
    match FindByPubkey(st.registry, pubkey)
    case Some(node) =>
      StatusReport(Some(node.alias), created, node.pubkey in st.directory, pubkey == node.pubkey,
             Some(pubkey), Some(node.username), Some(node.role))
    case None =>
      StatusReport(None, created, false, false, Some(pubkey), None, None)
  }

  /** Runs a start step after `earlier` effects and answers `response` if it succeeded. */
  function AfterStart(s: Outcome<Engine>, earlier: seq<Effect>, response: Response): (o: Outcome<Response>)
    ensures o.state == s.state && o.effects == earlier + s.effects
    ensures o.result.Success? <==> s.result.Success?
    ensures s.result.Failure? ==> o.result == Failure(s.result.error)
  {
    match s.result
    case Failure(e) => Outcome(s.state, earlier + s.effects, Failure(e))
    case Success(_) => Outcome(s.state, earlier + s.effects, Success(response))
  }

  /** The answer has the shape that belongs to the command. */
  predicate Answers(request: Request, response: Response)
  {
    match request
    case GetConfig => response.CurrentConfig?
    case UpdateConfig(_) => response == ConfigUpdated
    case GetStatus(_) => response.Status?
    case CreateAdmin(_, _, _, _, _) => response.AdminCreated?
    case StartAdmin(_) => response.AdminStarted?
    case CreateNode(_, _, _, _) => response.NodeCreated?
    case DeleteNode(_) => response == NodeDeleted
    case StartNode(_, _) => response.NodeStarted?
    case StopNode(_) => response == NodeStopped
  }

  /** `AdminService::call`: one command, as one sequence of atomic steps. Every answer fits its command;
      the read-only commands and `DeleteNode` leave the state alone; only the configuration commands touch
      the configuration; only the two create commands add a record, and at most one; `GetConfig`,
      `UpdateConfig`, `GetStatus` and `StopNode` never fail. */
  function Call(st: State, env: Env, request: Request): (o: Outcome<Response>)
    ensures o.result.Success? ==> Answers(request, o.result.value)
    ensures o.state.dataDir == st.dataDir
    ensures request.GetConfig? || request.GetStatus? || request.DeleteNode? ==> o.state == st
    ensures !(request.UpdateConfig? || request.CreateAdmin?) ==> o.state.config == st.config
    ensures request.UpdateConfig? ==>
      o == Outcome(WithUrl(st, request.electrumUrl), [SaveConfig(WithUrl(st, request.electrumUrl).config)],
                   Success(ConfigUpdated))
    ensures request.GetConfig? ==> o.result == Success(CurrentConfig(st.config.electrumUrl))
    ensures request.GetStatus? ==> o.result == Success(Status(StatusOf(st, request.pubkey)))
    ensures request.CreateAdmin? ==> o == CallCreateAdmin(st, env, request.username, request.alias,
                                                          request.passphrase, request.electrumUrl, request.start)
    ensures request.StartAdmin? ==> o == CallStartAdmin(st, env, request.passphrase)
    ensures request.StartNode? ==> o == CallStartNode(st, env, request.pubkey, request.passphrase)
    ensures request.StopNode? ==> o == CallStopNode(st, request.pubkey)
    ensures request.CreateNode? ==> o == CallCreateNode(st, env, request.username, request.alias,
                                                        request.passphrase, request.start)
    ensures request.DeleteNode? ==> o == CallDeleteNode(st, env, request.pubkey)
    ensures request.GetConfig? || request.UpdateConfig? || request.GetStatus? || request.StopNode? ==> o.result.Success?
    ensures |st.registry.nodes| <= |o.state.registry.nodes| <= |st.registry.nodes| + 1
    ensures !(request.CreateAdmin? || request.CreateNode?) ==> |o.state.registry.nodes| == |st.registry.nodes|
  {
    match request
    case GetConfig =>
      Outcome(st, [], Success(CurrentConfig(st.config.electrumUrl)))
    case UpdateConfig(url) =>
      var st1 := WithUrl(st, url);
      Outcome(st1, [SaveConfig(st1.config)], Success(ConfigUpdated))
    case GetStatus(pubkey) =>
      Outcome(st, [], Success(Status(StatusOf(st, pubkey))))
    case CreateAdmin(username, alias, passphrase, url, start) =>
      CallCreateAdmin(st, env, username, alias, passphrase, url, start)
    case StartAdmin(passphrase) =>
      CallStartAdmin(st, env, passphrase)
    case StartNode(pubkey, passphrase) =>
      CallStartNode(st, env, pubkey, passphrase)
    case StopNode(pubkey) =>
      CallStopNode(st, pubkey)
    case CreateNode(username, alias, passphrase, start) =>
      CallCreateNode(st, env, username, alias, passphrase, start)
    case DeleteNode(pubkey) =>
      CallDeleteNode(st, env, pubkey)
  }

  /** `CreateAdmin`: stores and saves the new backend URL, creates an admin record and optionally starts it.
      It answers the created engine's key and macaroon text, the record's external id and role Admin. */
  function CallCreateAdmin(st: State, env: Env, username: string, alias: string, passphrase: string,
                           url: string, start: bool): (o: Outcome<Response>)
    ensures o.state.config == WithUrl(st, url).config && o.state.dataDir == st.dataDir
    ensures o.result.Success? ==> o.result.value.AdminCreated?
    ensures |st.registry.nodes| <= |o.state.registry.nodes| <= |st.registry.nodes| + 1
    ensures var c := Create(WithUrl(st, url), env, username, alias, passphrase, Admin);
      && o.effects == [SaveConfig(WithUrl(st, url).config)]
           + (if start && c.result.Success? then Start(c.state, env, c.result.value.1, passphrase).effects else [])
      && |o.state.registry.nodes| == |c.state.registry.nodes|
      && (c.result.Failure? ==> o.state == c.state && o.result == Failure(c.result.error))
      && (o.result.Success? ==> c.result.Success? && o.result.value == AdminCreated(
            c.result.value.0.pubkey, Hex.Encode(c.result.value.0.macaroon), c.result.value.1.externalId, Admin))
      && (!start ==> o.state == c.state && (o.result.Success? <==> c.result.Success?))
      && (start && c.result.Success? ==>
            var s := Start(c.state, env, c.result.value.1, passphrase);
            && o.state == s.state && (o.result.Success? <==> s.result.Success?)
            && (s.result.Failure? ==> o.result == Failure(s.result.error)))
  {
    var st1 := WithUrl(st, url);
    var c := Create(st1, env, username, alias, passphrase, Admin);
    var effects := [SaveConfig(st1.config)] + c.effects;
    match c.result
    case Failure(e) => Outcome(c.state, effects, Failure(e))
    case Success((engine, node)) =>
      var response := AdminCreated(engine.pubkey, Hex.Encode(engine.macaroon), node.externalId, node.role);
      if start then AfterStart(Start(c.state, env, node, passphrase), effects, response)
      else Outcome(c.state, effects, Success(response))
  }

  /** `StartAdmin`: starts the admin record, or fails with "admin node not found" when there is none.
      It answers the started engine's key and macaroon text. */
  function CallStartAdmin(st: State, env: Env, passphrase: string): (o: Outcome<Response>)
    ensures o.state.config == st.config && o.state.dataDir == st.dataDir
    ensures |o.state.registry.nodes| == |st.registry.nodes|
    ensures GetAdmin(st.registry).None? ==> o == Outcome(st, [], Failure(Generic(AdminNotFound)))
    ensures GetAdmin(st.registry).Some? ==>
      var s := Start(st, env, GetAdmin(st.registry).value, passphrase);
      && o.state == s.state && o.effects == s.effects
      && (s.result.Failure? ==> o.result == Failure(s.result.error))
      && (s.result.Success? ==>
            o.result == Success(AdminStarted(s.result.value.pubkey, Hex.Encode(s.result.value.macaroon))))
  {
    match GetAdmin(st.registry)
    case None => Outcome(st, [], Failure(Generic(AdminNotFound)))
    case Some(node) =>
      var s := Start(st, env, node, passphrase);
      match s.result
      case Failure(e) => Outcome(s.state, s.effects, Failure(e))
      case Success(engine) =>
        Outcome(s.state, s.effects, Success(AdminStarted(engine.pubkey, Hex.Encode(engine.macaroon))))
  }

  /** `StartNode`: starts the record with that key, or fails with "node not found" when there is none.
      It answers the started engine's macaroon text. */
  function CallStartNode(st: State, env: Env, pubkey: string, passphrase: string): (o: Outcome<Response>)
    ensures o.state.config == st.config && o.state.dataDir == st.dataDir
    ensures |o.state.registry.nodes| == |st.registry.nodes|
    ensures !Registered(st.registry, pubkey) ==> o == Outcome(st, [], Failure(Generic(NodeNotFound)))
    ensures Registered(st.registry, pubkey) ==>
      var s := Start(st, env, FindByPubkey(st.registry, pubkey).value, passphrase);
      && o.state == s.state && o.effects == s.effects
      && (s.result.Failure? ==> o.result == Failure(s.result.error))
      && (s.result.Success? ==> o.result == Success(NodeStarted(Hex.Encode(s.result.value.macaroon))))
  {
    match FindByPubkey(st.registry, pubkey)
    case None => Outcome(st, [], Failure(Generic(NodeNotFound)))
    case Some(node) =>
      var s := Start(st, env, node, passphrase);
      match s.result
      case Failure(e) => Outcome(s.state, s.effects, Failure(e))
      case Success(engine) => Outcome(s.state, s.effects, Success(NodeStarted(Hex.Encode(engine.macaroon))))
  }

  /** `StopNode`: stops the key and marks its record Stopped; an unknown key is acknowledged untouched. */
  function CallStopNode(st: State, pubkey: string): (o: Outcome<Response>)
    ensures o.result == Success(NodeStopped)
    ensures o.state.config == st.config && o.state.dataDir == st.dataDir
    ensures |o.state.registry.nodes| == |st.registry.nodes|
    ensures !Registered(st.registry, pubkey) ==> o == Outcome(st, [], Success(NodeStopped))
    ensures Registered(st.registry, pubkey) ==>
      && o.state.directory == st.directory - {pubkey}
      && o.state.registry == Update(st.registry, FindByPubkey(st.registry, pubkey).value.(status := Stopped))
      && o.effects == (if pubkey in st.directory then [HaltTasks(pubkey)] else [])
  {
    match FindByPubkey(st.registry, pubkey)
    case None => Outcome(st, [], Success(NodeStopped))
    case Some(node) =>
      var s := Stop(st, pubkey);
      var st2 := s.state.(registry := Update(s.state.registry, node.(status := Stopped)));
      Outcome(st2, s.effects, Success(NodeStopped))
  }

  /** `CreateNode`: creates a tenant record and optionally starts it. It answers the created engine's key
      and macaroon text. */
  function CallCreateNode(st: State, env: Env, username: string, alias: string, passphrase: string,
                          start: bool): (o: Outcome<Response>)
    ensures o.state.config == st.config && o.state.dataDir == st.dataDir
    ensures o.result.Success? ==> o.result.value.NodeCreated?
    ensures |st.registry.nodes| <= |o.state.registry.nodes| <= |st.registry.nodes| + 1
    ensures var c := Create(st, env, username, alias, passphrase, User);
      && |o.state.registry.nodes| == |c.state.registry.nodes|
      && o.effects
           == (if start && c.result.Success? then Start(c.state, env, c.result.value.1, passphrase).effects else [])
      && (c.result.Failure? ==> o == Outcome(c.state, [], Failure(c.result.error)))
      && (o.result.Success? ==> c.result.Success? && o.result.value == NodeCreated(
            c.result.value.0.pubkey, Hex.Encode(c.result.value.0.macaroon)))
      && (!start ==> o.state == c.state && (o.result.Success? <==> c.result.Success?))
      && (start && c.result.Success? ==>
            var s := Start(c.state, env, c.result.value.1, passphrase);
            && o.state == s.state && (o.result.Success? <==> s.result.Success?)
            && (s.result.Failure? ==> o.result == Failure(s.result.error)))
  {
    var c := Create(st, env, username, alias, passphrase, User);
    match c.result
    case Failure(e) => Outcome(c.state, c.effects, Failure(e))
    case Success((engine, node)) =>
      var response := NodeCreated(engine.pubkey, Hex.Encode(engine.macaroon));
      if start then AfterStart(Start(c.state, env, node, passphrase), c.effects, response)
      else Outcome(c.state, c.effects, Success(response))
  }

  /** `DeleteNode`: removes the data directory of the record with that key, or fails with "node not found"
      when there is none; the state never changes. */
  function CallDeleteNode(st: State, env: Env, pubkey: string): (o: Outcome<Response>)
    ensures o.state == st
    ensures !Registered(st.registry, pubkey) ==> o == Outcome(st, [], Failure(Generic(NodeNotFound)))
    ensures Registered(st.registry, pubkey) ==>
      var path := DataDir(st, FindByPubkey(st.registry, pubkey).value);
      && o.effects == [RemoveDir(path)]
      && (env.removeDir(path).None? ==> o.result == Success(NodeDeleted))
      && (env.removeDir(path).Some? ==> o.result == Failure(Io(env.removeDir(path).value)))
  {
    match FindByPubkey(st.registry, pubkey)
    case None => Outcome(st, [], Failure(Generic(NodeNotFound)))
    case Some(node) =>
      var d := DeleteData(st, env, node);
      match d.result
      case Failure(e) => Outcome(d.state, d.effects, Failure(e))
      case Success(_) => Outcome(d.state, d.effects, Success(NodeDeleted))
  }
}

=== FILE: service_props.dfy ===
/** Properties of the command protocol that span whole commands or several of them. */
module ServiceProps {
  import opened Common
  import opened Registry
  import opened Lifecycle
  import opened LifecycleInvariants
  import opened RegistryAppend
  import opened Service
  import Hex

  /** `UpdateConfig(url)` then `GetConfig` answers `url`; the update touches nothing but the configuration
      and saves it. */
  lemma UpdateThenGetConfig(st: State, env: Env, env': Env, url: string)
    ensures var o := Call(st, env, UpdateConfig(url));
      && o.result == Success(ConfigUpdated)
      && o.state.registry == st.registry && o.state.directory == st.directory
      && o.effects == [SaveConfig(o.state.config)]
      && Call(o.state, env', GetConfig).result == Success(CurrentConfig(url))
  {
  }

  /** `GetStatus` always answers, changes nothing, and reports `created` exactly when an admin record
      exists and `running` exactly when a registered key is in the live directory. */
  lemma GetStatusNeverFails(st: State, env: Env, pubkey: string)
    ensures var o := Call(st, env, GetStatus(pubkey));
      && o.state == st && o.effects == []
      && o.result.Success? && o.result.value.Status?
      && var r := o.result.value.report;
         && r.pubkey == Some(pubkey)
         && (r.created <==> GetAdmin(st.registry).Some?)
         && (Registered(st.registry, pubkey) ==> (r.running <==> pubkey in st.directory))
         && (!Registered(st.registry, pubkey) ==> !r.running && !r.authenticated && r.role.None?)
  {
  }

  /** A missing record is a "not found" failure that changes nothing. */
  lemma MissingRecordsAreNotFound(st: State, env: Env, pubkey: string, passphrase: string)
    ensures GetAdmin(st.registry).None? ==>
      Call(st, env, StartAdmin(passphrase)) == Outcome(st, [], Failure(Generic(AdminNotFound)))
    ensures !Registered(st.registry, pubkey) ==>
      Call(st, env, StartNode(pubkey, passphrase)) == Outcome(st, [], Failure(Generic(NodeNotFound)))
    ensures !Registered(st.registry, pubkey) ==>
      Call(st, env, DeleteNode(pubkey)) == Outcome(st, [], Failure(Generic(NodeNotFound)))
  {
  }

  /** `DeleteNode` on a registered key removes that record's data directory and nothing else. */
  lemma DeleteNodeRemovesDataDir(st: State, env: Env, pubkey: string)
    requires Registered(st.registry, pubkey)
    ensures var o := Call(st, env, DeleteNode(pubkey));
      && o.state == st
      && exists i :: 0 <= i < |st.registry.nodes| && st.registry.nodes[i].pubkey == pubkey
           && o.effects == [RemoveDir(DataDir(st, st.registry.nodes[i]))]
  {
    var node := FindByPubkey(st.registry, pubkey).value;
    var i :| 0 <= i < |st.registry.nodes| && st.registry.nodes[i] == node;
  }

  /** `StopNode` never fails. An unregistered key changes nothing; a registered one loses its directory
      entry, every other entry stays, and its record is written back as Stopped. */
  lemma StopNodeCommand(st: State, env: Env, pubkey: string)
    requires WellFormed(st.registry)
    ensures var o := Call(st, env, StopNode(pubkey));
      && o.result == Success(NodeStopped)
      && (!Registered(st.registry, pubkey) ==> o == Outcome(st, [], Success(NodeStopped)))
      && (Registered(st.registry, pubkey) ==>
            && o.state.directory == st.directory - {pubkey}
            && o.state.config == st.config
            && o.effects == (if pubkey in st.directory then [HaltTasks(pubkey)] else [])
            && |o.state.registry.nodes| == |st.registry.nodes|
            && exists i :: 0 <= i < |st.registry.nodes| && st.registry.nodes[i].pubkey == pubkey
                 && o.state.registry.nodes[i] == st.registry.nodes[i].(status := Stopped)
                 && forall j :: 0 <= j < |st.registry.nodes| && j != i ==>
                      o.state.registry.nodes[j] == st.registry.nodes[j])
  {
    if Registered(st.registry, pubkey) {
      var o := Call(st, env, StopNode(pubkey));
      var node := FindByPubkey(st.registry, pubkey).value;
      assert o.state.registry.nodes[node.id] == node.(status := Stopped);
      assert forall j :: 0 <= j < |st.registry.nodes| && j != node.id ==>
        o.state.registry.nodes[j] == st.registry.nodes[j];
    }
  }

  /** `StopNode` twice is `StopNode` once: the second changes nothing and halts nothing. */
  lemma StopNodeIdempotent(st: State, env: Env, pubkey: string)
    requires WellFormed(st.registry)
    ensures var o1 := Call(st, env, StopNode(pubkey));
      Call(o1.state, env, StopNode(pubkey)) == Outcome(o1.state, [], Success(NodeStopped))
  {
    var o1 := Call(st, env, StopNode(pubkey));
    if Registered(st.registry, pubkey) {
      var node := FindByPubkey(st.registry, pubkey).value;
      var stopped := node.(status := Stopped);
      UpdateKeepsLookups(st.registry, stopped, pubkey);
      assert o1.state.registry == Update(st.registry, stopped);
      var again := FindByPubkey(o1.state.registry, pubkey).value;
      assert again == stopped;
      assert Update(o1.state.registry, again.(status := Stopped)) == o1.state.registry;
    }
  }

  /** A second `StartNode` for a key the first one started changes nothing and spawns nothing, whatever the
      environment of the second call: at most one handle per key, no duplicate background tasks. It gives
      the same answer when the engine factory answers as it did for the first call. */
  lemma StartNodeIdempotent(st: State, env: Env, env': Env, pubkey: string, passphrase: string)
    requires Valid(st)
    requires Call(st, env, StartNode(pubkey, passphrase)).result.Success?
    ensures var o1 := Call(st, env, StartNode(pubkey, passphrase));
      var o2 := Call(o1.state, env', StartNode(pubkey, passphrase));
      && pubkey in o1.state.directory
      && o2.state == o1.state && o2.effects == []
      && (env'.newEngine == env.newEngine ==> o2.result == o1.result)
  {
    var node := FindByPubkey(st.registry, pubkey).value;
    var s := Start(st, env, node, passphrase);
    var o1 := CallStartNode(st, env, pubkey, passphrase);
    assert Call(st, env, StartNode(pubkey, passphrase)) == o1;
    assert o1.state == s.state && s.result.Success?;
    var o2 := CallStartNode(o1.state, env', pubkey, passphrase);
    assert Call(o1.state, env', StartNode(pubkey, passphrase)) == o2;
    if pubkey !in st.directory {
      StartedRecordRebuilds(st, env, node, passphrase);
      StartAgainChangesNothing(s.state, env, env', FindByPubkey(s.state.registry, pubkey).value, passphrase);
    } else {
      StartAgainChangesNothing(st, env, env', node, passphrase);
    }
  }

  /** Starting a record whose key already has a handle changes nothing and spawns nothing, in any
      environment; with the same engine factory it rebuilds the same engine. */
  lemma StartAgainChangesNothing(st: State, env: Env, env': Env, node: Node, passphrase: string)
    requires node.pubkey in st.directory
    ensures var s2 := Start(st, env', node, passphrase);
      && s2.state == st && s2.effects == []
      && (env'.newEngine == env.newEngine ==> s2.result == GetNode(st, env, node, passphrase))
  {
    if env'.newEngine == env.newEngine {
      assert GetNode(st, env', node, passphrase) == GetNode(st, env, node, passphrase);
    }
  }

  /** After a successful first start, the record found under the key is the Running copy, its handle is
      live, and building it again yields the engine the start returned. */
  lemma StartedRecordRebuilds(st: State, env: Env, node: Node, passphrase: string)
    requires WellFormed(st.registry)
    requires Registered(st.registry, node.pubkey) && node == FindByPubkey(st.registry, node.pubkey).value
    requires node.pubkey !in st.directory
    requires Start(st, env, node, passphrase).result.Success?
    ensures var s := Start(st, env, node, passphrase);
      && node.pubkey in s.state.directory
      && Registered(s.state.registry, node.pubkey)
      && GetNode(s.state, env, FindByPubkey(s.state.registry, node.pubkey).value, passphrase) == s.result
  {
    var pubkey := node.pubkey;
    var s := Start(st, env, node, passphrase);
    var running := node.(status := Running, listenAddr := env.publicAddr);
    var st' := s.state;
    assert st'.registry == Update(st.registry, running);
    UpdateKeepsLookups(st.registry, running, pubkey);
    assert FindByPubkey(st'.registry, pubkey).value == running;
    assert NodeConfig(st', running, passphrase) == NodeConfig(st, node, passphrase);
    if node.IsUser() {
      AdminGraphSurvivesStart(st, env, node, passphrase);
    }
    GetNodeDependsOn(st', st, env, running, node, passphrase);
  }

  /** A tenant's first start leaves the admin record and its live engine, hence the shared graph, alone. */
  lemma AdminGraphSurvivesStart(st: State, env: Env, node: Node, passphrase: string)
    requires WellFormed(st.registry)
    requires node.IsUser() && node.id < |st.registry.nodes| && st.registry.nodes[node.id] == node
    requires node.pubkey !in st.directory
    requires Start(st, env, node, passphrase).result.Success?
    ensures AdminGraph(Start(st, env, node, passphrase).state) == AdminGraph(st)
  {
    var s := Start(st, env, node, passphrase);
    var running := node.(status := Running, listenAddr := env.publicAddr);
    UpdateKeepsLookups(st.registry, running, node.pubkey);
    var admin := GetAdmin(st.registry).value;
    assert admin.id != node.id;
    assert GetAdmin(s.state.registry) == GetAdmin(st.registry);
    assert admin.pubkey in st.directory;
    assert admin.pubkey != node.pubkey;
    assert s.state.directory[admin.pubkey] == st.directory[admin.pubkey];
  }

  /** `StopNode` undoes `StartNode` on the live directory, whether or not the start succeeded. */
  lemma StartThenStop(st: State, env: Env, pubkey: string, passphrase: string)
    requires Valid(st)
    ensures var o1 := Call(st, env, StartNode(pubkey, passphrase));
      var o2 := Call(o1.state, env, StopNode(pubkey));
      o2.state.directory == st.directory - {pubkey}
  {
    if Registered(st.registry, pubkey) {
      StartThenStopRegistered(st, env, pubkey, passphrase);
    } else {
      StartThenStopUnknown(st, env, pubkey, passphrase);
    }
  }

  /** The registered case of `StartThenStop`: the started record stays registered, so the stop finds it. */
  lemma StartThenStopRegistered(st: State, env: Env, pubkey: string, passphrase: string)
    requires WellFormed(st.registry)
    requires Registered(st.registry, pubkey)
    ensures var o1 := Call(st, env, StartNode(pubkey, passphrase));
      var o2 := Call(o1.state, env, StopNode(pubkey));
      o2.state.directory == st.directory - {pubkey}
  {
    var node := FindByPubkey(st.registry, pubkey).value;
    var o1 := CallStartNode(st, env, pubkey, passphrase);
    assert Call(st, env, StartNode(pubkey, passphrase)) == o1;
    StartKeepsKeyRegistered(st, env, node, passphrase);
    assert o1.state == Start(st, env, node, passphrase).state;
    var o2 := CallStopNode(o1.state, pubkey);
    assert Call(o1.state, env, StopNode(pubkey)) == o2;
  }

  /** Starting a record leaves its key registered and changes the directory only under that key. */
  lemma StartKeepsKeyRegistered(st: State, env: Env, node: Node, passphrase: string)
    requires WellFormed(st.registry)
    requires node.id < |st.registry.nodes| && st.registry.nodes[node.id] == node
    ensures var s := Start(st, env, node, passphrase);
      && Registered(s.state.registry, node.pubkey)
      && s.state.directory - {node.pubkey} == st.directory - {node.pubkey}
  {
    var s := Start(st, env, node, passphrase);
    if node.pubkey !in st.directory && s.result.Success? {
      assert s.state.registry.nodes[node.id] == node.(status := Running, listenAddr := env.publicAddr);
    } else {
      assert s.state == st;
    }
    assert s.state.registry.nodes[node.id].pubkey == node.pubkey;
  }

  /** The unknown-key case of `StartThenStop`: neither command touches the directory, which has no such key. */
  lemma StartThenStopUnknown(st: State, env: Env, pubkey: string, passphrase: string)
    requires Valid(st)
    requires !Registered(st.registry, pubkey)
    ensures var o1 := Call(st, env, StartNode(pubkey, passphrase));
      var o2 := Call(o1.state, env, StopNode(pubkey));
      o2.state.directory == st.directory - {pubkey}
  {
    assert Call(st, env, StartNode(pubkey, passphrase)).state == st;
    assert pubkey !in st.directory;
    assert st.directory - {pubkey} == st.directory;
  }

  /** `CreateNode` always makes a tenant record on a port no earlier record used; the record is appended
      whatever happens afterwards. */
  lemma CreateNodeAssignsUser(st: State, env: Env, username: string, alias: string, passphrase: string,
                              start: bool)
    ensures var o := Call(st, env, CreateNode(username, alias, passphrase, start));
      && (PickPort(st.registry, env.portCandidates).None? ==> o == Outcome(st, [], Failure(NoPortsLeft)))
      && (PickPort(st.registry, env.portCandidates).Some? ==>
            && |o.state.registry.nodes| == |st.registry.nodes| + 1
            && o.state.registry.nodes[|st.registry.nodes|].role == User
            && !PortInUse(st.registry, o.state.registry.nodes[|st.registry.nodes|].listenPort))
  {
    if PickPort(st.registry, env.portCandidates).Some? {
      var c := Create(st, env, username, alias, passphrase, User);
      CreateThenMaybeStart(c, st, env, passphrase, start);
    }
  }

  /** `CreateAdmin` stores the new URL, then makes an admin record on a port no earlier record used. */
  lemma CreateAdminAssignsAdmin(st: State, env: Env, username: string, alias: string, passphrase: string,
                                url: string, start: bool)
    ensures var o := Call(st, env, CreateAdmin(username, alias, passphrase, url, start));
      && o.state.config.electrumUrl == url
      && (PickPort(st.registry, env.portCandidates).Some? ==>
            && |o.state.registry.nodes| == |st.registry.nodes| + 1
            && o.state.registry.nodes[|st.registry.nodes|].role == Admin
            && !PortInUse(st.registry, o.state.registry.nodes[|st.registry.nodes|].listenPort))
  {
    var st1 := WithUrl(st, url);
    if PickPort(st.registry, env.portCandidates).Some? {
      var c := Create(st1, env, username, alias, passphrase, Admin);
      CreateThenMaybeStart(c, st1, env, passphrase, start);
    }
  }

  /** Starting the record a creation returned keeps the appended row's role and port. */
  lemma CreateThenMaybeStart(c: Outcome<(Engine, Node)>, st: State, env: Env, passphrase: string, start: bool)
    requires c.result != Failure(NoPortsLeft)
    requires |c.state.registry.nodes| == |st.registry.nodes| + 1
    requires c.result.Success? ==> c.result.value.1 == c.state.registry.nodes[|st.registry.nodes|]
    requires c.result.Success? ==> c.result.value.1.id == |st.registry.nodes|
    ensures c.result.Success? && start ==>
      var s := Start(c.state, env, c.result.value.1, passphrase);
      && |s.state.registry.nodes| == |c.state.registry.nodes|
      && s.state.registry.nodes[|st.registry.nodes|].role == c.state.registry.nodes[|st.registry.nodes|].role
      && s.state.registry.nodes[|st.registry.nodes|].listenPort
         == c.state.registry.nodes[|st.registry.nodes|].listenPort
  {
    if c.result.Success? && start {
      var node := c.result.value.1;
      var s := Start(c.state, env, node, passphrase);
      if node.pubkey !in c.state.directory && s.result.Success? {
        assert s.state.registry.nodes[node.id] == node.(status := Running, listenAddr := env.publicAddr);
      }
    }
  }

  /** `CreateNode` with `start` that succeeds leaves the new record's key, the one it answers, running. */
  lemma CreateNodeWithStartRuns(st: State, env: Env, username: string, alias: string, passphrase: string)
    ensures var o := Call(st, env, CreateNode(username, alias, passphrase, true));
      o.result.Success? ==>
        && o.result.value.pubkey == Create(st, env, username, alias, passphrase, User).result.value.1.pubkey
        && o.result.value.pubkey in o.state.directory
  {
  }

  /** `CreateAdmin` with `start` that succeeds leaves the new admin's key, the one it answers, running. */
  lemma CreateAdminWithStartRuns(st: State, env: Env, username: string, alias: string, passphrase: string,
                                 url: string)
    ensures var o := Call(st, env, CreateAdmin(username, alias, passphrase, url, true));
      o.result.Success? ==> o.result.value.pubkey in o.state.directory
  {
  }

  /** A tenant cannot be created while the admin is missing or not running: the command fails with the
      matching error, the live directory is untouched, and the inserted record stays behind without a
      public key (no compensating delete). */
  lemma CreateNodeWithoutRunningAdmin(st: State, env: Env, username: string, alias: string,
                                      passphrase: string, start: bool)
    requires PickPort(st.registry, env.portCandidates).Some?
    requires GetAdmin(st.registry).None? || GetAdmin(st.registry).value.pubkey !in st.directory
    ensures var o := Call(st, env, CreateNode(username, alias, passphrase, start));
      && o.result == Failure(if GetAdmin(st.registry).None? then AdminNodeNotCreated else AdminNodeNotStarted)
      && o.state.directory == st.directory
      && |o.state.registry.nodes| == |st.registry.nodes| + 1
      && o.state.registry.nodes[..|st.registry.nodes|] == st.registry.nodes
      && o.state.registry.nodes[|st.registry.nodes|].pubkey == ""
      && o.state.registry.nodes[|st.registry.nodes|].role == User
  {
    var port := PickPort(st.registry, env.portCandidates).value;
    var row := NewRecord(User, username, alias, NetworkName(st.config.network), env.publicAddr, port,
                         env.externalId);
    var inserted := st.(registry := Insert(st.registry, row));
    AdminAfterAppend(st.registry, row.(id := |st.registry.nodes|));
    assert GetAdmin(inserted.registry) == GetAdmin(st.registry);
  }

  /** `CreateAdmin` without starting, then `StartAdmin` with the same passphrase, succeeds when the engine
      factory does and gives a non-empty token: it answers the key and token the creation reported, the
      token is non-empty, and that key is left running. The second call may see any other environment, as
      long as its engine factory answers as the first one did. */
  lemma CreateAdminThenStartAdmin(st: State, env: Env, env': Env, username: string, alias: string,
                                  passphrase: string, url: string)
    requires GetAdmin(st.registry).None?
    requires PickPort(st.registry, env.portCandidates).Some?
    requires forall r :: env.newEngine(r).Success? && |env.newEngine(r).value.macaroon| > 0
    requires env'.newEngine == env.newEngine
    ensures var o1 := Call(st, env, CreateAdmin(username, alias, passphrase, url, false));
      var o2 := Call(o1.state, env', StartAdmin(passphrase));
      && o1.result.Success? && o1.result.value.AdminCreated?
      && |o1.result.value.macaroon| > 0
      && o2.result == Success(AdminStarted(o1.result.value.pubkey, o1.result.value.macaroon))
      && o1.result.value.pubkey in o2.state.directory
  {
    var st1 := WithUrl(st, url);
    var c := Create(st1, env, username, alias, passphrase, Admin);
    var port := PickPort(st.registry, env.portCandidates).value;
    var row := NewRecord(Admin, username, alias, NetworkName(st.config.network), env.publicAddr, port,
                         env.externalId);
    var node := row.(id := |st.registry.nodes|);
    var inserted := st1.(registry := Insert(st1.registry, row));
    var request := EngineRequest(NodeConfig(inserted, node, passphrase), None);
    var engine := env.newEngine(request).value;
    var named := node.(pubkey := engine.pubkey);
    assert c.result == Success((engine, named));
    assert c.state.registry.nodes == st.registry.nodes + [named];
    AdminAfterAppend(st.registry, named);
    assert GetAdmin(c.state.registry) == Some(named);
    assert NodeConfig(c.state, named, passphrase) == NodeConfig(inserted, node, passphrase);
    GetNodeDependsOn(c.state, inserted, env, named, node, passphrase);
    assert GetNode(c.state, env', named, passphrase) == GetNode(c.state, env, named, passphrase);
    Hex.EncodeInjective(engine.macaroon, []);
  }

  /** Every command keeps the service invariants: rows numbered by position, ports distinct, and only
      registered keys in the live directory. */
  lemma CallKeepsValid(st: State, env: Env, request: Request)
    requires Valid(st)
    ensures Valid(Call(st, env, request).state)
  {
    match request
    case GetConfig =>
    case UpdateConfig(_) =>
    case GetStatus(_) =>
    case DeleteNode(_) =>
    case CreateAdmin(username, alias, passphrase, url, start) =>
      var st1 := WithUrl(st, url);
      CreateKeepsValid(st1, env, username, alias, passphrase, Admin);
      var c := Create(st1, env, username, alias, passphrase, Admin);
      if c.result.Success? && start {
        StartKeepsValid(c.state, env, c.result.value.1, passphrase);
      }
    case CreateNode(username, alias, passphrase, start) =>
      CreateKeepsValid(st, env, username, alias, passphrase, User);
      var c := Create(st, env, username, alias, passphrase, User);
      if c.result.Success? && start {
        StartKeepsValid(c.state, env, c.result.value.1, passphrase);
      }
    case StartAdmin(passphrase) =>
      if GetAdmin(st.registry).Some? {
        StartKeepsValid(st, env, GetAdmin(st.registry).value, passphrase);
      }
    case StartNode(pubkey, passphrase) =>
      if Registered(st.registry, pubkey) {
        StartKeepsValid(st, env, FindByPubkey(st.registry, pubkey).value, passphrase);
      }
    case StopNode(pubkey) =>
      if Registered(st.registry, pubkey) {
        var node := FindByPubkey(st.registry, pubkey).value;
        var s := Stop(st, pubkey);
        UpdateKeepsShape(st.registry, node.(status := Stopped));
        RewriteKeepsDirectoryRegistered(st.registry, node.(status := Stopped), s.state.directory);
      }
  }
}
